=== FILE: README.md ===
# Budgets page: a Dafny model

This project models the logic of the budgets page of the finance dashboard
(`src/pages/BudgetsPage.tsx`). It covers:

- the list of budget entries fetched from the budgets endpoint;
- the derived table view: a case-insensitive search over department,
  project and period, followed by an optional stable sort on one column;
- the chart rows derived from that view;
- the colour given to a variance;
- the "Add Budget" dialog: its text-only draft, edits, reset, and the create
  request built from it;
- the page's state and every handler, as pure transitions.

Asynchronous handlers are split in two. A start transition returns the
request it issues. A finish transition takes the server's answer as a
parameter. The answer is one of:

- an accepted body;
- a body of the wrong shape;
- a failure, with or without a server message;
- for a create: accepted or refused.

The files:

- `optional.dfy`: the `Option` type, for a value that may be absent.
- `text.dfy`: what the page uses of JavaScript strings. That is `trim`,
  `toLowerCase`, `includes` and the `<`/`>` ordering, with their laws.
- `sequences.dfy`: `filter` on sequences.
- `budgets.dfy`: the budget entry and the variance colour.
- `sorting.dfy`: a stable sort under a three-way comparator, and its laws.
- `filter_sort.dfy`: search, the column comparator and the view.
- `chart.dfy`: the chart rows.
- `drafts.dfy`: the form draft, its edits and the request body.
- `page.dfy`: the page state, the handlers, the events and the invariant
  they keep.
- `page_examples.dfy`: the behaviour on concrete entries and answers.

For a response of the wrong shape, the code throws an `Error` with the text
"Invalid response from server". The catch block reads only
`err.response?.data?.message`, which that error lacks, so the page shows
"Failed to fetch budgets" (`Page.FetchFinish`).

## Model

| member | source | states |
|---|---|---|
| Text.Trim | src/pages/BudgetsPage.tsx:97-98 | the trimmed search is an infix of the input with only whitespace removed around it, starts and ends with a non-space, and is empty exactly when the input is all whitespace |
| Text.TrimIdempotent | src/pages/BudgetsPage.tsx:97-98 | trimming a trimmed search text changes nothing |
| Text.TrimUnpadded | src/pages/BudgetsPage.tsx:97-98 | a text with no whitespace at either end is left as it is by trimming |
| Text.TrimLower | src/pages/BudgetsPage.tsx:98 | trimming then lower-casing equals lower-casing then trimming, since lower-casing never creates or removes whitespace |
| Text.Lower | src/pages/BudgetsPage.tsx:98 | `toLowerCase` keeps the length, leaves no upper-case letter, keeps every other character in place and moves each of A-Z 32 code points on to its lower-case letter |
| Text.LowerChar | src/pages/BudgetsPage.tsx:98 | lower-casing a character yields no upper-case letter, shifts A-Z by 32 code points, keeps every other character, and keeps whitespace as whitespace |
| Text.LowerIdempotent | src/pages/BudgetsPage.tsx:98 | lower-casing twice is the same as lower-casing once |
| Text.LowerUnchanged | src/pages/BudgetsPage.tsx:98 | a text without upper-case letters is its own lower-casing |
| Text.Contains | src/pages/BudgetsPage.tsx:100-102 | `includes` is true exactly when the needle occurs at some position of the haystack, so the empty needle occurs everywhere |
| Text.LexLess | src/pages/BudgetsPage.tsx:113 | string `<` holds exactly when, at the first position where the two strings differ, the first has ended while the second goes on, or the first holds the smaller character |
| Text.LexLessIrreflexive | src/pages/BudgetsPage.tsx:113 | no string goes before itself under `<` |
| Text.LexLessAsymmetric | src/pages/BudgetsPage.tsx:113 | two strings are never each `<` the other |
| Text.LexLessTransitive | src/pages/BudgetsPage.tsx:113 | string `<` chains |
| Text.LexLessTotal | src/pages/BudgetsPage.tsx:113 | of two different strings one is `<` the other, so the comparator's "neither" case means equal |
| Sequences.Keep | src/pages/BudgetsPage.tsx:99-103 | `filter` returns no more elements than it was given, and only accepted ones |
| Sequences.KeepCount | src/pages/BudgetsPage.tsx:99-103 | `filter` keeps each accepted element exactly as many times as it occurs and drops every other |
| Sequences.KeepAppend | src/pages/BudgetsPage.tsx:99-103 | filtering a concatenation is the concatenation of the filtered parts, so kept elements keep their relative order |
| Sequences.KeepAll | src/pages/BudgetsPage.tsx:99-103 | filtering a sequence whose every element is accepted returns it unchanged |
| Budgets.ProjectText | src/pages/BudgetsPage.tsx:101 | the project searched is the entry's project, or the empty string when it has none |
| Budgets.VarianceColour | src/pages/BudgetsPage.tsx:143-144 | green exactly for a negative variance, red exactly for a positive one, the inherited colour exactly for zero |
| FilterSort.IsBlank | src/pages/BudgetsPage.tsx:97 | `search.trim()` is falsy exactly when every character of the search text is whitespace |
| FilterSort.Needle | src/pages/BudgetsPage.tsx:97-98 | the needle is no longer than the search text, holds no upper-case letter, has no whitespace at either end, and is empty exactly for a blank search |
| FilterSort.Matches | src/pages/BudgetsPage.tsx:99-102 | an entry matches the empty needle always; it never matches a needle holding an upper-case letter, because its fields are lower-cased first; and it never matches a needle longer than its department, project text and period |
| FilterSort.SearchFilter | src/pages/BudgetsPage.tsx:94-104 | a blank search keeps the collection as it is; a non-blank one keeps only entries that mention the trimmed, lower-cased needle, and never adds entries |
| FilterSort.SearchFilterCount | src/pages/BudgetsPage.tsx:97-104 | with a non-blank search each entry is kept exactly as often as it occurs when it matches, and not at all otherwise |
| FilterSort.SearchFilterMembership | src/pages/BudgetsPage.tsx:97-104 | with a non-blank search an entry is in the result iff it is in the collection and mentions the needle in department, project or period |
| FilterSort.SearchFilterAppend | src/pages/BudgetsPage.tsx:97-104 | searching a concatenation searches each part, so the search never reorders entries |
| FilterSort.NeedleIgnoresCaseAndPadding | src/pages/BudgetsPage.tsx:97-98 | lower-casing or trimming the search text changes neither the needle nor whether the search is blank |
| FilterSort.SearchIgnoresCaseAndPadding | src/pages/BudgetsPage.tsx:97-98 | lower-casing the search text or trimming it does not change the result |
| FilterSort.SearchFilterIdempotent | src/pages/BudgetsPage.tsx:97-104 | searching the search result again with the same text changes nothing |
| FilterSort.TextCompare | src/pages/BudgetsPage.tsx:111-113 | on text columns the comparator is negative, positive or zero exactly when the lower-cased values are `<`, `>` or equal |
| FilterSort.FigureCompare | src/pages/BudgetsPage.tsx:113 | on numeric columns the comparator is negative or positive exactly when the first figure is smaller or larger |
| FilterSort.Compare | src/pages/BudgetsPage.tsx:108-114 | the comparator returns -1, 0 or 1 |
| FilterSort.CompareAntisymmetric | src/pages/BudgetsPage.tsx:108-114 | swapping the operands negates the comparison, on every column and with absent projects too |
| FilterSort.CompareTransitive | src/pages/BudgetsPage.tsx:108-114 | on entries where the column has a value, "not after" and "strictly before" chain |
| FilterSort.AbsentProjectBreaksTransitivity | src/pages/BudgetsPage.tsx:108-114 | entries without a project tie with everything, so three entries exist where a ties with b, b with c, yet a goes after c |
| FilterSort.OrderIsPreorder | src/pages/BudgetsPage.tsx:108-114 | the comparator of every column is antisymmetric, and transitive on entries where the column has a value |
| Sorting.Insert | src/pages/BudgetsPage.tsx:108 | inserting into the sorted part adds exactly the one entry |
| Sorting.SortBy | src/pages/BudgetsPage.tsx:107-115 | the sort returns a permutation of its input |
| Sorting.InsertSorted | src/pages/BudgetsPage.tsx:108-114 | inserting an entry into a sorted sequence keeps it sorted, for a comparator that is a preorder on the entries |
| Sorting.SortBySorted | src/pages/BudgetsPage.tsx:107-115 | with a comparator that is a preorder on the entries, the sort gives ascending order |
| Sorting.SortBySortedIsIdentity | src/pages/BudgetsPage.tsx:107-115 | sorting an already ordered sequence returns it unchanged |
| Sorting.InsertStable | src/pages/BudgetsPage.tsx:108-114 | insertion keeps the input order among entries that tie with any given entry |
| Sorting.SortByStable | src/pages/BudgetsPage.tsx:107-115 | the sort is stable: for any entry, the entries tying with it come out in input order |
| FilterSort.View | src/pages/BudgetsPage.tsx:92-117 | with no sort key the view is the search result; with one it is a permutation of the search result |
| FilterSort.ViewOfBlankSearch | src/pages/BudgetsPage.tsx:94-97 | with a blank search the view holds every fetched entry, and with no sort key it is the collection itself |
| FilterSort.ViewMembership | src/pages/BudgetsPage.tsx:92-117 | with a non-blank search an entry is in the view iff it is fetched and matches |
| FilterSort.SearchKeepsSortable | src/pages/BudgetsPage.tsx:97-104 | a key with a value on every fetched entry has one on every entry the search keeps |
| FilterSort.ViewSorted | src/pages/BudgetsPage.tsx:107-116 | when a sort key is set and has a value on every entry the search keeps, the view is ascending |
| FilterSort.ViewStable | src/pages/BudgetsPage.tsx:107-116 | for a key with a value on every fetched entry, sorting the view keeps entries that tie under the chosen column in the order the search left them |
| FilterSort.ViewIdempotent | src/pages/BudgetsPage.tsx:92-117 | deriving the view from the view, with the same search and a key that has a value on every entry the search keeps, gives the same view |
| Chart.ChartData | src/pages/BudgetsPage.tsx:124-137 | one chart row per view entry, in view order, named "department period" and carrying amount, actual, forecast and the three scenario figures |
| Chart.ChartDataAppend | src/pages/BudgetsPage.tsx:124-137 | charting a concatenation charts each part, so the chart neither reorders nor drops entries |
| Drafts.Set | src/pages/BudgetsPage.tsx:162-164 | a form edit sets the named input to the typed text and leaves every other input and the scenarios as they were |
| Drafts.SetScenario | src/pages/BudgetsPage.tsx:166-167 | a scenario edit sets that scenario and keeps the other two and every top-level input |
| Drafts.SetCurrentValue | src/pages/BudgetsPage.tsx:162-167 | writing back an input's current text leaves the draft unchanged |
| Drafts.SetTwice | src/pages/BudgetsPage.tsx:162-164 | the last edit of an input wins |
| Drafts.SetCommutes | src/pages/BudgetsPage.tsx:162-164 | edits of different inputs commute |
| Drafts.SetAndSetScenarioCommute | src/pages/BudgetsPage.tsx:162-167 | top-level and scenario edits commute |
| Drafts.EmptyIsBlank | src/pages/BudgetsPage.tsx:49-57 | every input of the initial draft, scenarios included, is empty |
| Drafts.ToPayload | src/pages/BudgetsPage.tsx:177-188 | the create body sends department, project, period and notes as typed, and amount, forecast and each scenario through the number coercion |
| Drafts.PayloadFollowsTextEdit | src/pages/BudgetsPage.tsx:177-188 | editing a text input changes the create body in that slot only |
| Page.InitialState | src/pages/BudgetsPage.tsx:40-57 | before the first render the page has no table rows and no chart rows, shows the spinner, has no error or success message, and has its dialog closed on an empty draft |
| Page.Mounted | src/pages/BudgetsPage.tsx:40-66 | mounting issues exactly one GET and leaves the page loading, with no error, no rows, no submission under way and an empty draft behind a closed dialog |
| Page.Fetched | src/pages/BudgetsPage.tsx:75-76 | a response is accepted exactly when it is an array or an object with an array under `budgets`, and then yields that array |
| Page.ErrorText | src/pages/BudgetsPage.tsx:82 | the error shown is the server's message when present and non-empty, the fallback otherwise |
| Page.FetchStart | src/pages/BudgetsPage.tsx:65-72 | a fetch turns loading on, clears the error, issues one GET and changes nothing else |
| Page.FetchFinish | src/pages/BudgetsPage.tsx:74-85 | an accepted answer replaces the collection; a bad shape or a failure keeps it and sets the fallback or the server's message; loading ends on every path and nothing else changes |
| Page.FetchOutcomes | src/pages/BudgetsPage.tsx:65-86 | after a whole fetch, loading is off; an accepted answer leaves the new collection and no error; any other leaves the old collection and a non-empty error |
| Page.FetchIdempotent | src/pages/BudgetsPage.tsx:65-86 | fetching again with the same answer leaves the state as the first fetch left it |
| Page.SetSearch | src/pages/BudgetsPage.tsx:221-233 | typing in or clearing the search box sets the search text only |
| Page.SetSortKey | src/pages/BudgetsPage.tsx:265-267 | a header click sets the sort key only |
| Page.DismissSuccess | src/pages/BudgetsPage.tsx:355-358 | closing the snackbar clears the success message only |
| Page.Open | src/pages/BudgetsPage.tsx:147 | opening shows the dialog and changes nothing else, not even the draft |
| Page.Close | src/pages/BudgetsPage.tsx:148-159 | closing hides the dialog and empties every input, scenarios included, and nothing else changes |
| Page.EditField | src/pages/BudgetsPage.tsx:162-164 | an input edit changes that input of the draft and no other part of the page |
| Page.EditScenario | src/pages/BudgetsPage.tsx:166-167 | a scenario edit changes that scenario and no other part of the page |
| Page.CloseDiscardsEdits | src/pages/BudgetsPage.tsx:148-167 | an edit followed by a close ends as a close alone |
| Page.SubmitStart | src/pages/BudgetsPage.tsx:170-191 | submitting turns on the busy flag, clears the error and issues one POST of the draft's body, changing nothing else |
| Page.SubmitFinish | src/pages/BudgetsPage.tsx:193-200 | on success: the success message is set, a refetch starts, and the dialog closes with an empty draft. On refusal: the error is the server's message or "Failed to create budget", and draft, dialog and collection are kept. Both paths end the busy flag and leave the collection untouched. On success the search text and sort key are kept too; on refusal everything but the error and the busy flag is kept |
| Page.SubmitLifecycle | src/pages/BudgetsPage.tsx:170-201 | a whole submission sends the draft's body first; on success a GET follows and the draft is reset; on refusal the draft and dialog survive for a retry and an error is shown |
| Page.Enabled | src/pages/BudgetsPage.tsx:253-350 | the sort headers can be clicked exactly while the table is shown, not during loading; the form's inputs can be edited exactly while the dialog is open; the create button can be pressed exactly while the dialog is open and no submission is under way; a submission can end only while one is under way; the search box, the snackbar, opening and closing the dialog and a fetch's answer can always arrive |
| Page.Apply | src/pages/BudgetsPage.tsx:147-201 | of all the handlers, only starting a submission and a submission's success call the server, each with at most one request; only a fetch's answer changes the collection; only the submission handlers change the busy flag |
| Page.Run | src/pages/BudgetsPage.tsx:147-201 | after any sequence of events without a fetch answer, the collection is the one the page started with |
| Page.SubmissionsAlternate | src/pages/BudgetsPage.tsx:170-201 | along any sequence of enabled events, submissions started minus submissions ended, plus one already under way, is one while the busy flag is on and zero otherwise, so at most one POST is outstanding |
| Page.ApplyKeepsDiscipline | src/pages/BudgetsPage.tsx:147-201 | every enabled handler keeps the draft empty while the dialog is closed |
| Page.RunKeepsDiscipline | src/pages/BudgetsPage.tsx:147-201 | any sequence of enabled events keeps the draft empty while the dialog is closed |
| Page.OpenShowsEmptyDraft | src/pages/BudgetsPage.tsx:147-159 | whatever happened since mounting, opening a closed dialog shows an empty draft, although opening resets nothing |
| PageExamples.OpsSearchExample | src/pages/BudgetsPage.tsx:97-104 | searching "ops" keeps an entry of the "Ops" department, whose negative variance is green |
| PageExamples.OpsSearchMissExample | src/pages/BudgetsPage.tsx:97-104 | searching "it" drops that entry |
| PageExamples.SubmitExample | src/pages/BudgetsPage.tsx:170-201 | an accepted draft posts its coerced figures, is followed by a GET, and leaves the dialog closed on an empty draft with the success message |
| PageExamples.NoSortWhileLoading | src/pages/BudgetsPage.tsx:253-267 | right after mounting no sort header click can arrive, since the table is behind the loading spinner |
| PageExamples.FetchErrorExample | src/pages/BudgetsPage.tsx:81-82 | a failed read shows "Unauthorized" when the server says so, and "Failed to fetch budgets" without a message or for a bad shape |

## Left out

- The login page, routing, the bearer token read from local storage and the HTTP client: requests are values and answers are parameters.
- Rendering: the layout, the currency formatting of figures, the "-" shown for a missing project or note, the total card, and the loading spinner. The loading flag itself is modelled.
- The snackbar's 3000 ms auto-hide timer: the dismissal is an event that may arrive at any time.
- Concurrency between requests: every fetch or submission is a start and a finish. A stale answer that arrives after a newer one is just a later finish event.
- Floating point: figures are unbounded reals. NaN and the infinities are not budget figures. `Number()` is a parameter that maps text to a real or NaN.
- Unicode: lower-casing covers ASCII letters only, and strings are sequences of characters, not UTF-16 code units.
- The elements of an accepted array are not validated by the page and are taken to be budget entries. The `history` field and `_id`'s role as a rendering key are not modelled.
- A `null` project, or a server message that is not a string, is not representable.
- The page's `Array.isArray` checks on its own state (lines 94 and 125) cannot fail once the state only ever holds arrays, so they are not modelled as branches.
- `handleFormChange` accepts any `name` attribute. The model only covers the five named inputs and the notes field that the form renders.
- The `required` markers on the form: the create button calls the handler directly and does not run form validation, so the model does not check them either.
- The table headers offer only amount, actual and variance as sort keys. The model's key covers every column the page's key type allows.
- FilterSort.ViewSorted: ordering is proved only for keys with a value on every entry the search keeps. With an absent project the comparator is not transitive (`FilterSort.AbsentProjectBreaksTransitivity`), and the order JavaScript's sort then produces is not specified.
- FilterSort.ViewIdempotent: stated only for keys with a value on every entry the search keeps, for the same reason.
- Page.Enabled: a fetch's answer may arrive at any time, even with no fetch outstanding, because the model does not count outstanding requests. The invariants proved over enabled events (`Page.RunKeepsDiscipline`, `Page.SubmissionsAlternate`, `Page.OpenShowsEmptyDraft`) therefore cover more traces than the page can produce.

=== FILE: budgets.dfy ===
/** The budget record as the page receives it from the server, and the colour
    rule for its variance. */
module Budgets {
  import opened Optional

  /** The three projected figures attached to an entry. */
  datatype Scenarios = Scenarios(best: real, worst: real, expected: real)

  /** One budget entry. Figures are JavaScript numbers, modelled as reals;
      `project` and `notes` may be absent. */
  datatype Budget = Budget(
    id: string,
    department: string,
    project: Option<string>,
    period: string,
    amount: real,
    forecast: real,
    scenarios: Scenarios,
    actual: real,
    variance: real,
    notes: Option<string>)

  /** `b.project || ''`: the text the search looks at for the project. */
  function ProjectText(b: Budget): (t: string)
    ensures b.project.Some? ==> t == b.project.value
    ensures b.project.None? ==> t == ""
  {
    match b.project
    case Some(name) => name
    case None => ""
  }

  /** The colours the table gives a variance cell. */
  datatype Colour = Green | Red | Inherit

  /** Negative variance is favourable (green), positive unfavourable (red),
      zero is left in the inherited colour. */
  function VarianceColour(variance: real): (c: Colour)
    ensures c == Green <==> variance < 0.0
    ensures c == Red <==> variance > 0.0
    ensures c == Inherit <==> variance == 0.0
  {
    if variance < 0.0 then Green else if variance > 0.0 then Red else Inherit
  }
}

=== FILE: chart.dfy ===
/** The scenario chart: one bar group per entry of the table view. */
module Chart {
  import opened Budgets

  /** One chart row: the label and the six plotted series. */
  datatype Row = Row(
    name: string,
    budget: real,
    actual: real,
    forecast: real,
    best: real,
    worst: real,
    expected: real)

  /** The chart rows of `view`: same length and order as the view, each row
      labelled "department period" and carrying the entry's amount, actual,
      forecast and three scenario figures. */
  function ChartData(view: seq<Budget>): (rows: seq<Row>)
    ensures |rows| == |view|
    ensures forall i | 0 <= i < |view| ::
      && rows[i].name == view[i].department + " " + view[i].period
      && rows[i].budget == view[i].amount
      && rows[i].actual == view[i].actual
      && rows[i].forecast == view[i].forecast
      && rows[i].best == view[i].scenarios.best
      && rows[i].worst == view[i].scenarios.worst
      && rows[i].expected == view[i].scenarios.expected
  {
    if view == [] then []
    else
      var b := view[0];
      [Row(b.department + " " + b.period, b.amount, b.actual, b.forecast,
           b.scenarios.best, b.scenarios.worst, b.scenarios.expected)]
      + ChartData(view[1..])
  }

  /** Charting a concatenation charts each part: the chart never reorders or
      drops entries of the view. */
  lemma {:induction false} ChartDataAppend(a: seq<Budget>, b: seq<Budget>)
    ensures ChartData(a + b) == ChartData(a) + ChartData(b)
  {
    var l, r := ChartData(a + b), ChartData(a) + ChartData(b);
    assert |l| == |r|;
    forall i | 0 <= i < |l|
      ensures l[i] == r[i]
    {
      if i < |a| {
        assert (a + b)[i] == a[i];
      } else {
        assert (a + b)[i] == b[i - |a|];
      }
    }
  }
}

=== FILE: drafts.dfy ===
/** The "Add Budget" form: a draft whose every field is text, the two edit
    operations, the reset, and the request body built from it on submit. */
module Drafts {

  /** The scenario part of the draft, held as typed text. */
  datatype ScenarioDraft = ScenarioDraft(best: string, worst: string, expected: string)

  /** The form state. Numeric fields stay text until submission. */
  datatype Draft = Draft(
    department: string,
    project: string,
    period: string,
    amount: string,
    forecast: string,
    scenarios: ScenarioDraft,
    notes: string)

  /** The top-level inputs, named as their `name` attributes. */
  datatype Field = Department | Project | Period | Amount | Forecast | Notes

  /** The three scenario inputs. */
  datatype ScenarioField = Best | Worst | Expected

  /** The all-empty draft the form starts from and is reset to. */
  const Empty: Draft := Draft("", "", "", "", "", ScenarioDraft("", "", ""), "")

  /** The text of one top-level input. */
  function Get(d: Draft, f: Field): string {
    match f
    case Department => d.department
    case Project => d.project
    case Period => d.period
    case Amount => d.amount
    case Forecast => d.forecast
    case Notes => d.notes
  }

  /** The text of one scenario input. */
  function GetScenario(d: Draft, w: ScenarioField): string {
    match w
    case Best => d.scenarios.best
    case Worst => d.scenarios.worst
    case Expected => d.scenarios.expected
  }

  /** Two drafts are equal when every input shows the same text. */
  lemma DraftExtensional(a: Draft, b: Draft)
    requires forall f :: Get(a, f) == Get(b, f)
    requires forall w :: GetScenario(a, w) == GetScenario(b, w)
    ensures a == b
  {
    assert Get(a, Department) == Get(b, Department);
    assert Get(a, Project) == Get(b, Project);
    assert Get(a, Period) == Get(b, Period);
    assert Get(a, Amount) == Get(b, Amount);
    assert Get(a, Forecast) == Get(b, Forecast);
    assert Get(a, Notes) == Get(b, Notes);
    assert GetScenario(a, Best) == GetScenario(b, Best);
    assert GetScenario(a, Worst) == GetScenario(b, Worst);
    assert GetScenario(a, Expected) == GetScenario(b, Expected);
  }

  /** A top-level edit: the named input takes any text, unchecked, and nothing
      else in the draft changes. */
  function Set(d: Draft, f: Field, v: string): (r: Draft)
    ensures Get(r, f) == v
    ensures forall g | g != f :: Get(r, g) == Get(d, g)
    ensures r.scenarios == d.scenarios
  {
    match f
    case Department => d.(department := v)
    case Project => d.(project := v)
    case Period => d.(period := v)
    case Amount => d.(amount := v)
    case Forecast => d.(forecast := v)
    case Notes => d.(notes := v)
  }

  /** A scenario edit: the named scenario input takes the text, the other two
      and every top-level input keep theirs. */
  function SetScenario(d: Draft, w: ScenarioField, v: string): (r: Draft)
    ensures GetScenario(r, w) == v
    ensures forall u | u != w :: GetScenario(r, u) == GetScenario(d, u)
    ensures forall f :: Get(r, f) == Get(d, f)
  {
    match w
    case Best => d.(scenarios := d.scenarios.(best := v))
    case Worst => d.(scenarios := d.scenarios.(worst := v))
    case Expected => d.(scenarios := d.scenarios.(expected := v))
  }

  /** Writing back what an input already shows changes nothing. */
  lemma SetCurrentValue(d: Draft, f: Field, w: ScenarioField)
    ensures Set(d, f, Get(d, f)) == d
    ensures SetScenario(d, w, GetScenario(d, w)) == d
  {
    DraftExtensional(Set(d, f, Get(d, f)), d);
    DraftExtensional(SetScenario(d, w, GetScenario(d, w)), d);
  }

  /** The last edit of an input wins. */
  lemma SetTwice(d: Draft, f: Field, v: string, v': string)
    ensures Set(Set(d, f, v), f, v') == Set(d, f, v')
  {
    DraftExtensional(Set(Set(d, f, v), f, v'), Set(d, f, v'));
  }

  /** Edits of different inputs can happen in either order. */
  lemma SetCommutes(d: Draft, f: Field, g: Field, v: string, u: string)
    requires f != g
    ensures Set(Set(d, f, v), g, u) == Set(Set(d, g, u), f, v)
  {
    DraftExtensional(Set(Set(d, f, v), g, u), Set(Set(d, g, u), f, v));
  }

  /** Top-level and scenario edits touch disjoint parts of the draft. */
  lemma SetAndSetScenarioCommute(d: Draft, f: Field, w: ScenarioField, v: string, u: string)
    ensures SetScenario(Set(d, f, v), w, u) == Set(SetScenario(d, w, u), f, v)
  {
    DraftExtensional(SetScenario(Set(d, f, v), w, u), Set(SetScenario(d, w, u), f, v));
  }

  /** Every input of the reset draft is empty. */
  lemma EmptyIsBlank()
    ensures forall f :: Get(Empty, f) == ""
    ensures forall w :: GetScenario(Empty, w) == ""
  {
  }

  /* ------------------------------------------------------------------------ */
  /*  Request body                                                            */
  /* ------------------------------------------------------------------------ */

  /** What `Number(text)` yields: a number, or the not-a-number value for text
      that does not read as one. */
  datatype Numeric = Finite(value: real) | NaN

  datatype ScenarioFigures = ScenarioFigures(best: Numeric, worst: Numeric, expected: Numeric)

  /** The body of the create request. */
  datatype Payload = Payload(
    department: string,
    project: string,
    period: string,
    amount: Numeric,
    forecast: Numeric,
    scenarios: ScenarioFigures,
    notes: string)

  /** The create request body built from the draft: the four text inputs are
      sent as typed; amount, forecast and the scenarios go through the number
      coercion `coerce`, unchecked. */
  function ToPayload(d: Draft, coerce: string -> Numeric): (p: Payload)
    ensures p.department == Get(d, Department)
    ensures p.project == Get(d, Project)
    ensures p.period == Get(d, Period)
    ensures p.notes == Get(d, Notes)
    ensures p.amount == coerce(Get(d, Amount))
    ensures p.forecast == coerce(Get(d, Forecast))
    ensures p.scenarios.best == coerce(GetScenario(d, Best))
    ensures p.scenarios.worst == coerce(GetScenario(d, Worst))
    ensures p.scenarios.expected == coerce(GetScenario(d, Expected))
  {
    Payload(
      d.department,
      d.project,
      d.period,
      coerce(d.amount),
      coerce(d.forecast),
      ScenarioFigures(coerce(d.scenarios.best), coerce(d.scenarios.worst), coerce(d.scenarios.expected)),
      d.notes)
  }

  /** Editing a text input changes the request body only in that input's slot. */
  lemma PayloadFollowsTextEdit(d: Draft, f: Field, v: string, coerce: string -> Numeric)
    requires f in {Department, Project, Period, Notes}
    ensures var p, q := ToPayload(d, coerce), ToPayload(Set(d, f, v), coerce);
      && q.amount == p.amount && q.forecast == p.forecast && q.scenarios == p.scenarios
      && (f == Department ==> q == p.(department := v))
      && (f == Project ==> q == p.(project := v))
      && (f == Period ==> q == p.(period := v))
      && (f == Notes ==> q == p.(notes := v))
  {
  }
}

=== FILE: filter_sort.dfy ===
/** The derived table view: the fetched collection narrowed by the search box
    and then ordered by the chosen column. */
module FilterSort {
  import opened Optional
  import opened Text
  import opened Sequences
  import opened Budgets
  import opened Sorting

  /* ------------------------------------------------------------------------ */
  /*  Search                                                                  */
  /* ------------------------------------------------------------------------ */

  /** The search text as it is compared: trimmed, then lower-cased. It is no
      longer than the search text, holds no upper-case letter, has no
      whitespace at either end, and is empty exactly for a blank search. */
  function Needle(search: string): (r: string)
    ensures |r| <= |search|
    ensures forall i | 0 <= i < |r| :: !IsUpper(r[i])
    ensures r == [] || (!IsWhitespace(r[0]) && !IsWhitespace(r[|r| - 1]))
    ensures r == [] <==> IsBlank(search)
  {
    Lower(Trim(search))
  }

  /** A search box holding only whitespace does not filter. */
  function IsBlank(search: string): (r: bool)
    ensures r <==> forall i | 0 <= i < |search| :: IsWhitespace(search[i])
  {
    Trim(search) == []
  }

  /** The entry mentions `needle` in its lower-cased department, project (the
      empty string when absent) or period. The empty needle is mentioned by
      every entry; a needle with an upper-case letter by none, since the
      fields are lower-cased first; and a needle longer than all three fields
      by none. */
  function Matches(b: Budget, needle: string): (r: bool)
    ensures needle == [] ==> r
    ensures (exists i | 0 <= i < |needle| :: IsUpper(needle[i])) ==> !r
    ensures r ==> |needle| <= |b.department| || |needle| <= |ProjectText(b)| || |needle| <= |b.period|
  {
    assert needle == [] ==> OccursAt(Lower(b.department), needle, 0);
    NoUpperMatch(Lower(b.department), needle);
    NoUpperMatch(Lower(ProjectText(b)), needle);
    NoUpperMatch(Lower(b.period), needle);
    || Contains(Lower(b.department), needle)
    || Contains(Lower(ProjectText(b)), needle)
    || Contains(Lower(b.period), needle)
  }

  /** A text without upper-case letters contains no needle that has one. */
  lemma NoUpperMatch(hay: string, needle: string)
    requires forall i | 0 <= i < |hay| :: !IsUpper(hay[i])
    ensures (exists i | 0 <= i < |needle| :: IsUpper(needle[i])) ==> !Contains(hay, needle)
  {
    forall j, i | OccursAt(hay, needle, j) && 0 <= i < |needle|
      ensures !IsUpper(needle[i])
    {
      assert needle[i] == hay[j..j + |needle|][i] == hay[j + i];
    }
  }

  function MatchesNeedle(needle: string): Budget -> bool {
    b => Matches(b, needle)
  }

  /** The search step of the view. A blank search keeps the collection as it
      is; otherwise only entries matching the needle are kept. */
  function SearchFilter(data: seq<Budget>, search: string): (r: seq<Budget>)
    ensures IsBlank(search) ==> r == data
    ensures |r| <= |data|
    ensures !IsBlank(search) ==> forall i | 0 <= i < |r| :: Matches(r[i], Needle(search))
  {
    if IsBlank(search) then data else Keep(data, MatchesNeedle(Needle(search)))
  }

  /** With a non-blank search an entry is kept, as often as it occurs,
      exactly when it matches the needle. */
  lemma SearchFilterCount(data: seq<Budget>, search: string)
    requires !IsBlank(search)
    ensures forall b ::
      multiset(SearchFilter(data, search))[b] == if Matches(b, Needle(search)) then multiset(data)[b] else 0
  {
    KeepCount(data, MatchesNeedle(Needle(search)));
  }

  /** With a non-blank search an entry survives exactly when it is in the
      collection and matches. */
  lemma SearchFilterMembership(data: seq<Budget>, search: string)
    requires !IsBlank(search)
    ensures forall b :: b in SearchFilter(data, search) <==> b in data && Matches(b, Needle(search))
  {
    var r := SearchFilter(data, search);
    SearchFilterCount(data, search);
    forall b
      ensures b in r <==> b in data && Matches(b, Needle(search))
    {
      assert b in r <==> multiset(r)[b] > 0;
      assert b in data <==> multiset(data)[b] > 0;
    }
  }

  /** Searching a concatenation searches each part, so entries the search keeps
      stay in their original relative order. */
  lemma SearchFilterAppend(a: seq<Budget>, b: seq<Budget>, search: string)
    ensures SearchFilter(a + b, search) == SearchFilter(a, search) + SearchFilter(b, search)
  {
    if !IsBlank(search) {
      KeepAppend(a, b, MatchesNeedle(Needle(search)));
    }
  }

  /** Lower-casing or trimming the search text changes neither its needle nor
      whether it is blank. */
  lemma NeedleIgnoresCaseAndPadding(search: string)
    ensures Needle(Lower(search)) == Needle(search) && (IsBlank(Lower(search)) <==> IsBlank(search))
    ensures Needle(Trim(search)) == Needle(search) && (IsBlank(Trim(search)) <==> IsBlank(search))
  {
    TrimLower(search);
    LowerIdempotent(Trim(search));
    TrimIdempotent(search);
  }

  /** The case of the search text and whitespace around it do not matter. */
  lemma {:induction false} SearchIgnoresCaseAndPadding(data: seq<Budget>, search: string)
    ensures SearchFilter(data, Lower(search)) == SearchFilter(data, search)
    ensures SearchFilter(data, Trim(search)) == SearchFilter(data, search)
  {
    NeedleIgnoresCaseAndPadding(search);
  }

  /** Searching a second time with the same text changes nothing. */
  lemma {:induction false} SearchFilterIdempotent(data: seq<Budget>, search: string)
    ensures SearchFilter(SearchFilter(data, search), search) == SearchFilter(data, search)
  {
    if !IsBlank(search) {
      var r := SearchFilter(data, search);
      KeepAll(r, MatchesNeedle(Needle(search)));
    }
  }

  /* ------------------------------------------------------------------------ */
  /*  Sort comparator                                                         */
  /* ------------------------------------------------------------------------ */

  /** The sortable columns; `Unsorted` is the empty key, which turns sorting
      off. */
  datatype SortKey = Unsorted | Department | Project | Period | Amount | Actual | Variance | Forecast

  /** The comparator on two strings: both lower-cased, then `<` and `>`. */
  function TextCompare(x: string, y: string): (r: int)
    ensures r < 0 <==> LexLess(Lower(x), Lower(y))
    ensures r > 0 <==> LexLess(Lower(y), Lower(x))
    ensures r == 0 <==> Lower(x) == Lower(y)
    ensures -1 <= r <= 1
  {
    var lx, ly := Lower(x), Lower(y);
    LexLessAsymmetric(lx, ly);
    LexLessTotal(lx, ly);
    LexLessIrreflexive(lx);
    if LexLess(lx, ly) then -1 else if LexLess(ly, lx) then 1 else 0
  }

  /** The comparator on two numbers. */
  function FigureCompare(x: real, y: real): (r: int)
    ensures r < 0 <==> x < y
    ensures r > 0 <==> y < x
    ensures -1 <= r <= 1
  {
    if x < y then -1 else if x > y then 1 else 0
  }

  /** The sort comparator for column `k`: negative when `a` goes first,
      positive when `b` does, zero otherwise. An absent project is
      `undefined`, which is neither less nor greater than anything, and the
      empty key reads `undefined` from both entries. */
  function Compare(k: SortKey, a: Budget, b: Budget): (r: int)
    ensures -1 <= r <= 1
  {
    match k
    case Unsorted => 0
    case Department => TextCompare(a.department, b.department)
    case Project =>
      (match (a.project, b.project)
       case (Some(x), Some(y)) => TextCompare(x, y)
       case _ => 0)
    case Period => TextCompare(a.period, b.period)
    case Amount => FigureCompare(a.amount, b.amount)
    case Actual => FigureCompare(a.actual, b.actual)
    case Variance => FigureCompare(a.variance, b.variance)
    case Forecast => FigureCompare(a.forecast, b.forecast)
  }

  /** Swapping the operands negates the comparison. */
  lemma CompareAntisymmetric(k: SortKey, a: Budget, b: Budget)
    ensures Compare(k, a, b) == -Compare(k, b, a)
  {
  }

  /** Column `k` has a value in entry `b`: only the project can be absent. */
  predicate Defined(k: SortKey, b: Budget) {
    k == Project ==> b.project.Some?
  }

  lemma TextCompareTransitive(x: string, y: string, z: string)
    ensures TextCompare(x, y) <= 0 && TextCompare(y, z) <= 0 ==> TextCompare(x, z) <= 0
    ensures TextCompare(x, y) < 0 && TextCompare(y, z) <= 0 ==> TextCompare(x, z) < 0
    ensures TextCompare(x, y) <= 0 && TextCompare(y, z) < 0 ==> TextCompare(x, z) < 0
  {
    var lx, ly, lz := Lower(x), Lower(y), Lower(z);
    if LexLess(lx, ly) && LexLess(ly, lz) {
      LexLessTransitive(lx, ly, lz);
    }
  }

  /** On entries where column `k` is defined the comparator is a total
      preorder: "not after" and "strictly before" chain. */
  lemma CompareTransitive(k: SortKey, a: Budget, b: Budget, c: Budget)
    requires Defined(k, a) && Defined(k, b) && Defined(k, c)
    ensures Compare(k, a, b) <= 0 && Compare(k, b, c) <= 0 ==> Compare(k, a, c) <= 0
    ensures Compare(k, a, b) < 0 && Compare(k, b, c) <= 0 ==> Compare(k, a, c) < 0
    ensures Compare(k, a, b) <= 0 && Compare(k, b, c) < 0 ==> Compare(k, a, c) < 0
  {
    match k
    case Department => TextCompareTransitive(a.department, b.department, c.department);
    case Project => TextCompareTransitive(a.project.value, b.project.value, c.project.value);
    case Period => TextCompareTransitive(a.period, b.period, c.period);
    case _ =>
  }

  /** Without the definedness condition the comparator is not an order: an
      entry with no project ties with both of two entries that are ordered. */
  lemma AbsentProjectBreaksTransitivity()
    ensures exists a, b, c ::
      Compare(Project, a, b) == 0 && Compare(Project, b, c) == 0 && Compare(Project, a, c) > 0
  {
    var s := Scenarios(0.0, 0.0, 0.0);
    var a := Budget("1", "d", Some("b"), "p", 0.0, 0.0, s, 0.0, 0.0, None);
    var b := a.(project := None);
    var c := a.(project := Some("a"));
    assert LexLess(Lower("a"), Lower("b")) by {
      assert Lower("a") == "a" && Lower("b") == "b";
    }
    assert Compare(Project, a, b) == 0 && Compare(Project, b, c) == 0 && Compare(Project, a, c) > 0;
  }

  /* ------------------------------------------------------------------------ */
  /*  Sorting by a column                                                     */
  /* ------------------------------------------------------------------------ */

  /** The comparator of column `k`, as the function handed to the sort. */
  function Order(k: SortKey): (Budget, Budget) -> int {
    (a, b) => Compare(k, a, b)
  }

  function DefinedFor(k: SortKey): Budget -> bool {
    b => Defined(k, b)
  }

  /** Every entry of `s` has a value in column `k`. */
  predicate SortableBy(k: SortKey, s: seq<Budget>) {
    AllOk(DefinedFor(k), s)
  }

  /** On every column the comparator is antisymmetric, and transitive on the
      entries where the column has a value. */
  lemma {:induction false} OrderIsPreorder(k: SortKey)
    ensures Preorder(Order(k), DefinedFor(k))
  {
    forall a, b
      ensures Order(k)(a, b) == -Order(k)(b, a)
    {
      CompareAntisymmetric(k, a, b);
    }
    forall a, b, c | DefinedFor(k)(a) && DefinedFor(k)(b) && DefinedFor(k)(c)
      ensures Order(k)(a, b) <= 0 && Order(k)(b, c) <= 0 ==> Order(k)(a, c) <= 0
    {
      CompareTransitive(k, a, b, c);
    }
  }

  /* ------------------------------------------------------------------------ */
  /*  The view                                                                */
  /* ------------------------------------------------------------------------ */

  /** The rows the table shows: search first, then sort unless the key is
      empty, in which case the searched sequence is returned as it is. */
  function View(data: seq<Budget>, search: string, k: SortKey): (r: seq<Budget>)
    ensures k == Unsorted ==> r == SearchFilter(data, search)
    ensures multiset(r) == multiset(SearchFilter(data, search))
  {
    var found := SearchFilter(data, search);
    if k == Unsorted then found else SortBy(Order(k), found)
  }

  /** With a blank search the view holds exactly the collection's entries, each
      as often as in the collection. */
  lemma ViewOfBlankSearch(data: seq<Budget>, search: string, k: SortKey)
    requires IsBlank(search)
    ensures multiset(View(data, search, k)) == multiset(data)
    ensures k == Unsorted ==> View(data, search, k) == data
  {
  }

  /** With a non-blank search an entry is in the view exactly when it is in the
      collection and mentions the needle. */
  lemma {:induction false} ViewMembership(data: seq<Budget>, search: string, k: SortKey)
    requires !IsBlank(search)
    ensures forall b :: b in View(data, search, k) <==> b in data && Matches(b, Needle(search))
  {
    var r := View(data, search, k);
    SearchFilterMembership(data, search);
    forall b
      ensures b in r <==> b in SearchFilter(data, search)
    {
      assert b in r <==> b in multiset(r);
    }
  }

  /** The search only drops entries, so a key defined on the whole collection
      is defined on what the search keeps. */
  lemma SearchKeepsSortable(k: SortKey, data: seq<Budget>, search: string)
    requires SortableBy(k, data)
    ensures SortableBy(k, SearchFilter(data, search))
  {
    var found := SearchFilter(data, search);
    if !IsBlank(search) {
      SearchFilterMembership(data, search);
      forall i | 0 <= i < |found|
        ensures Defined(k, found[i])
      {
        assert found[i] in data;
      }
    }
  }

  /** With a key defined on every entry the search keeps, the view is sorted. */
  lemma ViewSorted(data: seq<Budget>, search: string, k: SortKey)
    requires SortableBy(k, SearchFilter(data, search))
    ensures Sorted(Order(k), View(data, search, k)) || k == Unsorted
  {
    if k != Unsorted {
      OrderIsPreorder(k);
      SortBySorted(Order(k), DefinedFor(k), SearchFilter(data, search));
    }
  }

  /** Sorting the view keeps ties in the order the search left them: for any
      entry `y` with a value in column `k`, the entries tying with it appear
      in the view in collection order, provided every fetched entry has a
      value in that column. */
  lemma ViewStable(data: seq<Budget>, search: string, k: SortKey, y: Budget)
    requires SortableBy(k, data) && Defined(k, y)
    ensures Ties(Order(k), y, View(data, search, k)) == Ties(Order(k), y, SearchFilter(data, search))
  {
    if k != Unsorted {
      SearchKeepsSortable(k, data, search);
      OrderIsPreorder(k);
      SortByStable(Order(k), DefinedFor(k), y, SearchFilter(data, search));
    }
  }

  /** Deriving the view from an already derived view, with the same search and
      key, gives the same view, provided the key is defined on every entry the
      search keeps. */
  lemma {:induction false} ViewIdempotent(data: seq<Budget>, search: string, k: SortKey)
    requires SortableBy(k, SearchFilter(data, search))
    ensures View(View(data, search, k), search, k) == View(data, search, k)
  {
    var found := SearchFilter(data, search);
    var v := View(data, search, k);
    SearchFilterIdempotent(data, search);
    if !IsBlank(search) {
      forall i | 0 <= i < |v|
        ensures Matches(v[i], Needle(search))
      {
        assert v[i] in multiset(found);
        assert v[i] in found;
      }
      KeepAll(v, MatchesNeedle(Needle(search)));
    }
    assert SearchFilter(v, search) == v;
    if k != Unsorted {
      ViewSorted(data, search, k);
      OrderIsPreorder(k);
      SortBySortedIsIdentity(Order(k), v);
    }
  }
}

=== FILE: optional.dfy ===
/** A JavaScript property that may be `undefined`, or a server reply that may
    carry no message. */
module Optional {

  datatype Option<T> = None | Some(value: T)
}

=== FILE: page.dfy ===
/** The budgets page as a state machine. Each handler of the page is a pure
    transition on `State`; the network calls it makes come out as `Request`
    values, and their answers come back in as `FetchOutcome` and
    `SubmitOutcome` values, so the asynchronous parts are split into a start
    and a finish transition. */
module Page {
  import opened Optional
  import opened Budgets
  import FilterSort
  import Chart
  import Drafts

  const FetchFallback: string := "Failed to fetch budgets"
  const SubmitFallback: string := "Failed to create budget"
  const CreatedMessage: string := "Budget created successfully!"

  /** Everything the page keeps between renders. */
  datatype State = State(
    budgets: seq<Budget>,
    loading: bool,
    error: string,
    success: string,
    search: string,
    sortKey: FilterSort.SortKey,
    open: bool,
    submitting: bool,
    form: Drafts.Draft)

  /** The state before the first render: loading, nothing fetched, the dialog
      closed and the draft empty. */
  const Initial: State :=
    State([], true, "", "", "", FilterSort.Unsorted, false, false, Drafts.Empty)

  /** Before the first render the page shows no rows and no chart, only the
      spinner, and the dialog is closed on an empty draft. */
  lemma InitialState()
    ensures Rows(Initial) == [] && ChartRows(Initial) == []
    ensures Initial.loading && !Initial.submitting && !Initial.open
    ensures Initial.error == "" && Initial.success == ""
    ensures Initial.form == Drafts.Empty
  {
  }

  /** A call the page issues to the budgets endpoint. */
  datatype Request = GetBudgets | PostBudget(payload: Drafts.Payload)

  /** A transition's new state and the calls it issued, in order. */
  datatype Step = Step(state: State, requests: seq<Request>)

  /* ------------------------------------------------------------------------ */
  /*  Derived views                                                           */
  /* ------------------------------------------------------------------------ */

  /** The table rows. */
  function Rows(st: State): seq<Budget> {
    FilterSort.View(st.budgets, st.search, st.sortKey)
  }

  /** The chart rows, derived from the table rows and nothing else. */
  function ChartRows(st: State): seq<Chart.Row> {
    Chart.ChartData(Rows(st))
  }

  /* ------------------------------------------------------------------------ */
  /*  Fetching                                                                */
  /* ------------------------------------------------------------------------ */

  /** What a response may hold under its `budgets` property. */
  datatype BudgetsProperty = ArrayValue(items: seq<Budget>) | OtherValue | Missing

  /** The shape of a successful response body: an array, an object, or any
      other value (null, a string, a number). */
  datatype ResponseBody = ArrayBody(items: seq<Budget>) | ObjectBody(budgets: BudgetsProperty) | OtherBody

  /** How a fetch ends: a response arrives, or the call fails, with or without
      a `message` in the server's error body. */
  datatype FetchOutcome = Received(body: ResponseBody) | TransportFailed(serverMessage: Option<string>)

  /** How a create request ends. */
  datatype SubmitOutcome = Created | Refused(serverMessage: Option<string>)

  /** The budgets a response carries, if its shape is one the page accepts: a
      bare array, or an object with an array under `budgets`. */
  function Fetched(body: ResponseBody): (r: Option<seq<Budget>>)
    ensures r.Some? <==> body.ArrayBody? || (body.ObjectBody? && body.budgets.ArrayValue?)
    ensures body.ArrayBody? ==> r == Some(body.items)
    ensures body.ObjectBody? && body.budgets.ArrayValue? ==> r == Some(body.budgets.items)
  {
    match body
    case ArrayBody(items) => Some(items)
    case ObjectBody(ArrayValue(items)) => Some(items)
    case _ => None
  }

  /** A server message is shown only when present and not empty. */
  predicate Shows(serverMessage: Option<string>) {
    serverMessage.Some? && serverMessage.value != ""
  }

  /** `message || fallback`. */
  function ErrorText(serverMessage: Option<string>, fallback: string): (t: string)
    ensures Shows(serverMessage) ==> t == serverMessage.value
    ensures !Shows(serverMessage) ==> t == fallback
  {
    if Shows(serverMessage) then serverMessage.value else fallback
  }

  /** The synchronous start of a fetch: loading on, the old error cleared, one
      GET issued; nothing else changes. */
  function FetchStart(st: State): (s: Step)
    ensures s.state.loading && s.state.error == ""
    ensures s.requests == [GetBudgets]
    ensures s.state.(loading := st.loading, error := st.error) == st
  {
    Step(st.(loading := true, error := ""), [GetBudgets])
  }

  /** The end of a fetch. An accepted response replaces the collection
      wholesale. A response of any other shape, or a failed call, keeps the
      collection and sets the error: the server's message when the failure
      carries one, the fallback otherwise, and always the fallback for a bad
      shape, whose thrown error has no server response. Loading is off on
      every path, and nothing else changes. */
  function FetchFinish(st: State, o: FetchOutcome): (r: State)
    ensures !r.loading
    ensures o.Received? && Fetched(o.body).Some? ==>
      r.budgets == Fetched(o.body).value && r.error == st.error
    ensures o.Received? && Fetched(o.body).None? ==>
      r.budgets == st.budgets && r.error == FetchFallback
    ensures o.TransportFailed? ==> r.budgets == st.budgets
    ensures o.TransportFailed? && Shows(o.serverMessage) ==> r.error == o.serverMessage.value
    ensures o.TransportFailed? && !Shows(o.serverMessage) ==> r.error == FetchFallback
    ensures r.(budgets := st.budgets, loading := st.loading, error := st.error) == st
  {
    match o
    case Received(body) =>
      (match Fetched(body)
       case Some(items) => st.(budgets := items, loading := false)
       case None => st.(error := FetchFallback, loading := false))
    case TransportFailed(message) =>
      st.(error := ErrorText(message, FetchFallback), loading := false)
  }

  /** A whole fetch whose answer arrives before anything else happens. */
  function Fetch(st: State, o: FetchOutcome): State {
    FetchFinish(FetchStart(st).state, o)
  }

  /** A fetch ends with loading off; an accepted answer leaves no error, any
      other leaves a non-empty one and the old collection. */
  lemma FetchOutcomes(st: State, o: FetchOutcome)
    ensures !Fetch(st, o).loading
    ensures o.Received? && Fetched(o.body).Some? ==>
      Fetch(st, o).budgets == Fetched(o.body).value && Fetch(st, o).error == ""
    ensures !(o.Received? && Fetched(o.body).Some?) ==>
      Fetch(st, o).budgets == st.budgets && Fetch(st, o).error != ""
  {
  }

  /** Repeating a fetch that gets the same answer changes nothing more: each
      call fully replaces what the previous one set. */
  lemma FetchIdempotent(st: State, o: FetchOutcome)
    ensures Fetch(Fetch(st, o), o) == Fetch(st, o)
  {
  }

  /* ------------------------------------------------------------------------ */
  /*  Search box, sort header, snackbar                                       */
  /* ------------------------------------------------------------------------ */

  function SetSearch(st: State, text: string): (r: State)
    ensures r.search == text
    ensures r.(search := st.search) == st
  {
    st.(search := text)
  }

  function SetSortKey(st: State, k: FilterSort.SortKey): (r: State)
    ensures r.sortKey == k
    ensures r.(sortKey := st.sortKey) == st
  {
    st.(sortKey := k)
  }

  /** Closing the success snackbar clears the success message. */
  function DismissSuccess(st: State): (r: State)
    ensures r.success == ""
    ensures r.(success := st.success) == st
  {
    st.(success := "")
  }

  /* ------------------------------------------------------------------------ */
  /*  Dialog and form                                                         */
  /* ------------------------------------------------------------------------ */

  /** Opening the dialog only shows it; the draft is whatever it was. */
  function Open(st: State): (r: State)
    ensures r.open
    ensures r.(open := st.open) == st
  {
    st.(open := true)
  }

  /** Closing the dialog hides it and resets every input, scenarios included,
      to the empty text. */
  function Close(st: State): (r: State)
    ensures !r.open
    ensures forall f :: Drafts.Get(r.form, f) == ""
    ensures forall w :: Drafts.GetScenario(r.form, w) == ""
    ensures r.(open := st.open, form := st.form) == st
  {
    st.(open := false, form := Drafts.Empty)
  }

  /** A top-level input edit changes that input of the draft only. */
  function EditField(st: State, f: Drafts.Field, v: string): (r: State)
    ensures Drafts.Get(r.form, f) == v
    ensures forall g | g != f :: Drafts.Get(r.form, g) == Drafts.Get(st.form, g)
    ensures forall w :: Drafts.GetScenario(r.form, w) == Drafts.GetScenario(st.form, w)
    ensures r.(form := st.form) == st
  {
    st.(form := Drafts.Set(st.form, f, v))
  }

  /** A scenario input edit changes that scenario only, keeping the other two
      and all top-level inputs. */
  function EditScenario(st: State, w: Drafts.ScenarioField, v: string): (r: State)
    ensures Drafts.GetScenario(r.form, w) == v
    ensures forall u | u != w :: Drafts.GetScenario(r.form, u) == Drafts.GetScenario(st.form, u)
    ensures forall f :: Drafts.Get(r.form, f) == Drafts.Get(st.form, f)
    ensures r.(form := st.form) == st
  {
    st.(form := Drafts.SetScenario(st.form, w, v))
  }

  /** Closing discards whatever edits came before it. */
  lemma CloseDiscardsEdits(st: State, f: Drafts.Field, w: Drafts.ScenarioField, v: string)
    ensures Close(EditField(st, f, v)) == Close(st)
    ensures Close(EditScenario(st, w, v)) == Close(st)
  {
  }

  /* ------------------------------------------------------------------------ */
  /*  Submission                                                              */
  /* ------------------------------------------------------------------------ */

  /** The synchronous start of a submission: submitting on, the error cleared,
      and one POST carrying the draft converted with `coerce`. */
  function SubmitStart(st: State, coerce: string -> Drafts.Numeric): (s: Step)
    ensures s.state.submitting && s.state.error == ""
    ensures s.requests == [PostBudget(Drafts.ToPayload(st.form, coerce))]
    ensures s.state.(submitting := st.submitting, error := st.error) == st
  {
    Step(st.(submitting := true, error := ""), [PostBudget(Drafts.ToPayload(st.form, coerce))])
  }

  /** The end of a submission. When the server creates the entry: the success
      message is set, a refetch starts (loading on, error cleared, one GET
      issued), the dialog closes and the draft is reset; the collection itself
      is not touched until that refetch answers. When the server refuses: the
      error is its message or the fallback, and the draft, the dialog and the
      collection stay as they are. Submitting is off on both paths. */
  function SubmitFinish(st: State, o: SubmitOutcome): (s: Step)
    ensures !s.state.submitting
    ensures s.state.budgets == st.budgets
    ensures o.Created? ==>
      && s.state.success == CreatedMessage
      && s.state.loading && s.state.error == ""
      && s.requests == [GetBudgets]
      && !s.state.open && s.state.form == Drafts.Empty
    ensures o.Created? ==>
      s.state.(success := st.success, loading := st.loading, error := st.error,
               open := st.open, form := st.form, submitting := st.submitting) == st
    ensures o.Refused? ==>
      && s.requests == []
      && s.state.error == ErrorText(o.serverMessage, SubmitFallback)
      && s.state.(error := st.error, submitting := st.submitting) == st
  {
    match o
    case Created =>
      var refetch := FetchStart(st.(success := CreatedMessage));
      Step(Close(refetch.state).(submitting := false), refetch.requests)
    case Refused(message) =>
      Step(st.(error := ErrorText(message, SubmitFallback), submitting := false), [])
  }

  /** A whole submission whose answer arrives before anything else happens. */
  function Submit(st: State, coerce: string -> Drafts.Numeric, o: SubmitOutcome): Step {
    var start := SubmitStart(st, coerce);
    var finish := SubmitFinish(start.state, o);
    Step(finish.state, start.requests + finish.requests)
  }

  /** Over a whole submission: the POST carries the draft as it was; on
      success a GET follows and the draft is reset; on refusal the draft is
      kept for a retry and the error explains why. */
  lemma SubmitLifecycle(st: State, coerce: string -> Drafts.Numeric, o: SubmitOutcome)
    ensures !Submit(st, coerce, o).state.submitting
    ensures Submit(st, coerce, o).requests[0] == PostBudget(Drafts.ToPayload(st.form, coerce))
    ensures Submit(st, coerce, o).state.budgets == st.budgets
    ensures o.Created? ==>
      Submit(st, coerce, o).requests == [PostBudget(Drafts.ToPayload(st.form, coerce)), GetBudgets]
      && Submit(st, coerce, o).state.form == Drafts.Empty
      && !Submit(st, coerce, o).state.open
    ensures o.Refused? ==>
      |Submit(st, coerce, o).requests| == 1
      && Submit(st, coerce, o).state.form == st.form
      && Submit(st, coerce, o).state.open == st.open
      && Submit(st, coerce, o).state.error != ""
  {
  }

  /* ------------------------------------------------------------------------ */
  /*  Events                                                                  */
  /* ------------------------------------------------------------------------ */

  /** Everything that can happen to the page. No event starts a fetch: the
      page fetches only when it mounts and after a successful create, and both
      starts are part of those transitions. */
  datatype Event =
    | FetchEnded(fetch: FetchOutcome)
    | SearchChanged(text: string)
    | SortChosen(key: FilterSort.SortKey)
    | SuccessDismissed
    | DialogOpened
    | DialogClosed
    | FieldEdited(field: Drafts.Field, value: string)
    | ScenarioEdited(which: Drafts.ScenarioField, value: string)
    | SubmitStarted
    | SubmitEnded(submit: SubmitOutcome)

  /** Events the model lets arrive in a state: the sort headers exist only
      while the table is shown, not behind the loading spinner; the form's
      inputs and its create button exist only while the dialog is open, the
      button is disabled while submitting, and a submission can only end while
      one is under way. */
  function Enabled(st: State, e: Event): (r: bool)
    ensures e.SortChosen? ==> (r <==> !st.loading)
    ensures (e.FieldEdited? || e.ScenarioEdited?) ==> (r <==> st.open)
    ensures e.SubmitStarted? ==> (r <==> st.open && !st.submitting)
    ensures e.SubmitEnded? ==> (r <==> st.submitting)
    ensures !(e.SortChosen? || e.FieldEdited? || e.ScenarioEdited? || e.SubmitStarted? || e.SubmitEnded?) ==> r
  {
    match e
    case SortChosen(_) => !st.loading
    case FieldEdited(_, _) => st.open
    case ScenarioEdited(_, _) => st.open
    case SubmitStarted => st.open && !st.submitting
    case SubmitEnded(_) => st.submitting
    case _ => true
  }

  /** Dispatches an event to its handler. Only starting a submission, or a
      submission's success, calls the server, and then with one request; only
      a fetch's answer touches the collection; only the submission handlers
      touch the busy flag. */
  function Apply(st: State, e: Event, coerce: string -> Drafts.Numeric): (s: Step)
    ensures |s.requests| <= 1
    ensures !(e.SubmitStarted? || e.SubmitEnded?) ==> s.requests == []
    ensures !e.FetchEnded? ==> s.state.budgets == st.budgets
    ensures !(e.SubmitStarted? || e.SubmitEnded?) ==> s.state.submitting == st.submitting
  {
    match e
    case FetchEnded(o) => Step(FetchFinish(st, o), [])
    case SearchChanged(text) => Step(SetSearch(st, text), [])
    case SortChosen(k) => Step(SetSortKey(st, k), [])
    case SuccessDismissed => Step(DismissSuccess(st), [])
    case DialogOpened => Step(Open(st), [])
    case DialogClosed => Step(Close(st), [])
    case FieldEdited(f, v) => Step(EditField(st, f, v), [])
    case ScenarioEdited(w, v) => Step(EditScenario(st, w, v), [])
    case SubmitStarted => SubmitStart(st, coerce)
    case SubmitEnded(o) => SubmitFinish(st, o)
  }

  /** The state after mounting: the first fetch has started. */
  function Mounted(): (s: Step)
    ensures s.requests == [GetBudgets]
    ensures s.state.loading && s.state.error == "" && Rows(s.state) == []
    ensures !s.state.submitting && !s.state.open && s.state.form == Drafts.Empty
  {
    InitialState();
    FetchStart(Initial)
  }

  /** Every event of `es` is enabled when it arrives. */
  predicate Admissible(st: State, es: seq<Event>, coerce: string -> Drafts.Numeric)
    decreases |es|
  {
    es == [] || (Enabled(st, es[0]) && Admissible(Apply(st, es[0], coerce).state, es[1..], coerce))
  }

  /** The state after the events of `es`, in order. The collection can only
      change through a fetch's answer. */
  function Run(st: State, es: seq<Event>, coerce: string -> Drafts.Numeric): (r: State)
    ensures (forall i | 0 <= i < |es| :: !es[i].FetchEnded?) ==> r.budgets == st.budgets
    decreases |es|
  {
    if es == [] then st else Run(Apply(st, es[0], coerce).state, es[1..], coerce)
  }

  /** How many events of `es` satisfy `p`. */
  function CountOf(es: seq<Event>, p: Event -> bool): nat
    decreases |es|
  {
    if es == [] then 0 else (if p(es[0]) then 1 else 0) + CountOf(es[1..], p)
  }

  /** Submissions start and end in turn: along any sequence of enabled
      events, the submissions started minus those ended, plus one already
      under way, is one exactly while the busy flag is on and zero otherwise,
      so at most one POST is ever outstanding. */
  lemma {:induction false} SubmissionsAlternate(st: State, es: seq<Event>, coerce: string -> Drafts.Numeric)
    requires Admissible(st, es, coerce)
    ensures (if st.submitting then 1 else 0)
              + CountOf(es, (e: Event) => e.SubmitStarted?) - CountOf(es, (e: Event) => e.SubmitEnded?)
            == (if Run(st, es, coerce).submitting then 1 else 0)
    decreases |es|
  {
    if es != [] {
      SubmissionsAlternate(Apply(st, es[0], coerce).state, es[1..], coerce);
    }
  }

  /** While the dialog is closed the draft is empty. */
  predicate DraftDiscipline(st: State) {
    !st.open ==> st.form == Drafts.Empty
  }

  lemma ApplyKeepsDiscipline(st: State, e: Event, coerce: string -> Drafts.Numeric)
    requires DraftDiscipline(st) && Enabled(st, e)
    ensures DraftDiscipline(Apply(st, e, coerce).state)
  {
  }

  lemma {:induction false} RunKeepsDiscipline(st: State, es: seq<Event>, coerce: string -> Drafts.Numeric)
    requires DraftDiscipline(st) && Admissible(st, es, coerce)
    ensures DraftDiscipline(Run(st, es, coerce))
    decreases |es|
  {
    if es != [] {
      ApplyKeepsDiscipline(st, es[0], coerce);
      RunKeepsDiscipline(Apply(st, es[0], coerce).state, es[1..], coerce);
    }
  }

  /** Whatever happened since the page mounted, opening the dialog from a
      closed state shows an empty draft, although opening itself resets
      nothing. */
  lemma OpenShowsEmptyDraft(es: seq<Event>, coerce: string -> Drafts.Numeric)
    requires Admissible(Mounted().state, es, coerce)
    ensures var st := Run(Mounted().state, es, coerce);
      !st.open ==> Open(st).form == Drafts.Empty
  {
    RunKeepsDiscipline(Mounted().state, es, coerce);
  }
}

=== FILE: page_examples.dfy ===
/** Worked cases of the page's behaviour on concrete data. */
module PageExamples {
  import opened Optional
  import opened Text
  import opened Budgets
  import Sequences
  import FilterSort
  import Drafts
  import Page

  /** An operations budget that came in under plan. */
  function OpsEntry(): Budget {
    Budget("b1", "Ops", None, "2024-Q1", 1000.0, 950.0,
           Scenarios(1100.0, 800.0, 950.0), 900.0, -100.0, None)
  }

  lemma LowerOps()
    ensures Lower("Ops") == "ops" && Lower("ops") == "ops"
  {
    assert LowerChar('O') == 'o';
    var r, r' := Lower("Ops"), Lower("ops");
    assert r[0] == 'o' && r[1] == 'p' && r[2] == 's';
    assert r'[0] == 'o' && r'[1] == 'p' && r'[2] == 's';
  }

  lemma NeedleOps()
    ensures FilterSort.Needle("ops") == "ops"
  {
    TrimUnpadded("ops");
    LowerOps();
  }

  lemma OpsMatches()
    ensures FilterSort.Matches(OpsEntry(), "ops")
  {
    LowerOps();
    assert OccursAt("ops", "ops", 0) by {
      assert "ops"[0..3] == "ops";
    }
  }

  /** Searching "ops" keeps the one entry, and its negative variance shows as
      favourable. */
  lemma OpsSearchExample()
    ensures FilterSort.View([OpsEntry()], "ops", FilterSort.Unsorted) == [OpsEntry()]
    ensures VarianceColour(OpsEntry().variance) == Green
  {
    NeedleOps();
    TrimUnpadded("ops");
    OpsMatches();
    Sequences.KeepAll([OpsEntry()], FilterSort.MatchesNeedle("ops"));
  }

  /** A needle whose first character never appears in `hay` does not occur in
      it. */
  lemma MissingFirstChar(hay: string, needle: string)
    requires needle != []
    requires forall i | 0 <= i < |hay| :: hay[i] != needle[0]
    ensures !Contains(hay, needle)
  {
    forall i
      ensures !OccursAt(hay, needle, i)
    {
      if 0 <= i && i + |needle| <= |hay| {
        assert hay[i..i + |needle|][0] == hay[i];
      }
    }
  }

  lemma NeedleIt()
    ensures FilterSort.Needle("it") == "it"
  {
    TrimUnpadded("it");
    LowerUnchanged("it");
  }

  lemma LowerPeriod()
    ensures Lower("2024-Q1") == "2024-q1"
  {
    var r := Lower("2024-Q1");
    assert LowerChar('Q') == 'q';
    assert r[0] == '2' && r[1] == '0' && r[2] == '2' && r[3] == '4';
    assert r[4] == '-' && r[5] == 'q' && r[6] == '1';
  }

  lemma OpsMisses()
    ensures !FilterSort.Matches(OpsEntry(), "it")
  {
    LowerOps();
    LowerPeriod();
    MissingFirstChar("ops", "it");
    MissingFirstChar("", "it");
    MissingFirstChar("2024-q1", "it");
  }

  /** Searching "it" drops the same entry: the needle occurs in none of
      "ops", "" and "2024-q1". */
  lemma OpsSearchMissExample()
    ensures FilterSort.View([OpsEntry()], "it", FilterSort.Unsorted) == []
  {
    var b := OpsEntry();
    NeedleIt();
    TrimUnpadded("it");
    OpsMisses();
    assert [b][1..] == [];
  }

  /** A draft for IT, submitted and accepted: the numbers are coerced, a
      refetch follows the POST, and the dialog closes on an empty draft. */
  lemma SubmitExample(coerce: string -> Drafts.Numeric)
    requires coerce("500") == Drafts.Finite(500.0)
    requires coerce("520") == Drafts.Finite(520.0)
    requires coerce("600") == Drafts.Finite(600.0)
    requires coerce("400") == Drafts.Finite(400.0)
    ensures var d := Drafts.Draft("IT", "", "2024-Q2", "500", "520",
                                  Drafts.ScenarioDraft("600", "400", "500"), "");
      var st := Page.Initial.(open := true, loading := false, form := d);
      var step := Page.Submit(st, coerce, Page.Created);
      && step.requests == [
        Page.PostBudget(Drafts.Payload("IT", "", "2024-Q2",
          Drafts.Finite(500.0), Drafts.Finite(520.0),
          Drafts.ScenarioFigures(Drafts.Finite(600.0), Drafts.Finite(400.0), Drafts.Finite(500.0)),
          "")),
        Page.GetBudgets]
      && step.state.form == Drafts.Empty
      && !step.state.open
      && step.state.success == "Budget created successfully!"
  {
  }

  /** Right after mounting the table is behind the loading spinner, so no sort
      header can be clicked. */
  lemma NoSortWhileLoading(k: FilterSort.SortKey, coerce: string -> Drafts.Numeric)
    ensures !Page.Admissible(Page.Mounted().state, [Page.SortChosen(k)], coerce)
  {
  }

  /** A failed read shows the server's message, or the fallback without one. */
  lemma FetchErrorExample(st: Page.State)
    ensures Page.FetchFinish(st, Page.TransportFailed(Some("Unauthorized"))).error == "Unauthorized"
    ensures Page.FetchFinish(st, Page.TransportFailed(None)).error == "Failed to fetch budgets"
    ensures Page.FetchFinish(st, Page.Received(Page.ObjectBody(Page.Missing))).error == "Failed to fetch budgets"
  {
  }
}

=== FILE: sequences.dfy ===
/** `Array.prototype.filter` on sequences: keep the elements a predicate
    accepts, in their original order. */
module Sequences {

  function Keep<T>(s: seq<T>, p: T -> bool): (r: seq<T>)
    ensures |r| <= |s|
    ensures forall i | 0 <= i < |r| :: p(r[i])
  {
    if s == [] then []
    else if p(s[0]) then [s[0]] + Keep(s[1..], p)
    else Keep(s[1..], p)
  }

  /** Every accepted element is kept as often as it occurs, and no other is. */
  lemma {:induction false} KeepCount<T(!new)>(s: seq<T>, p: T -> bool)
    ensures forall x :: multiset(Keep(s, p))[x] == if p(x) then multiset(s)[x] else 0
  {
    if s != [] {
      KeepCount(s[1..], p);
      assert s == [s[0]] + s[1..];
    }
  }

  /** Filtering a concatenation filters each part and keeps the parts in order:
      kept elements never change their relative order. */
  lemma {:induction false} KeepAppend<T(!new)>(a: seq<T>, b: seq<T>, p: T -> bool)
    ensures Keep(a + b, p) == Keep(a, p) + Keep(b, p)
  {
    if a == [] {
      assert a + b == b;
    } else {
      var x, rest := a[0], a[1..];
      var head := if p(x) then [x] else [];
      assert a == [x] + rest;
      calc {
        Keep(a + b, p);
        { assert a + b == [x] + (rest + b); }
        Keep([x] + (rest + b), p);
        { KeepCons(x, rest + b, p); }
        head + Keep(rest + b, p);
        { KeepAppend(rest, b, p); }
        head + (Keep(rest, p) + Keep(b, p));

        (head + Keep(rest, p)) + Keep(b, p);
        { KeepCons(x, rest, p); }
        Keep(a, p) + Keep(b, p);
      }
    }
  }

  /** Filtering one more element in front adds it in front if it is kept. */
  lemma KeepCons<T(!new)>(x: T, s: seq<T>, p: T -> bool)
    ensures Keep([x] + s, p) == (if p(x) then [x] else []) + Keep(s, p)
  {
    var xs := [x] + s;
    assert xs[0] == x;
    assert xs[1..] == s;
  }

  /** A sequence whose every element is accepted is kept whole. */
  lemma {:induction false} KeepAll<T(!new)>(s: seq<T>, p: T -> bool)
    requires forall i | 0 <= i < |s| :: p(s[i])
    ensures Keep(s, p) == s
  {
    if s != [] {
      KeepAll(s[1..], p);
    }
  }

  /** Two fronts that commute can be swapped in front of any tail. */
  lemma SwapFront<T>(a: seq<T>, b: seq<T>, c: seq<T>)
    requires a + b == b + a
    ensures a + (b + c) == b + (a + c)
  {
    assert a + (b + c) == (a + b) + c;
    assert b + (a + c) == (b + a) + c;
  }
}

=== FILE: sorting.dfy ===
/** `Array.prototype.sort` with a three-way comparator, modelled as a stable
    insertion sort, and the laws it satisfies when the comparator is a total
    preorder on the entries being sorted. */
module Sorting {
  import opened Sequences

  /** Swapping the operands negates the comparison. */
  ghost predicate Antisymmetric<T(!new)>(cmp: (T, T) -> int) {
    forall a, b :: cmp(a, b) == -cmp(b, a)
  }

  /** "Not after" chains on the values `ok` accepts. */
  ghost predicate TransitiveOn<T(!new)>(cmp: (T, T) -> int, ok: T -> bool) {
    forall a, b, c | ok(a) && ok(b) && ok(c) :: cmp(a, b) <= 0 && cmp(b, c) <= 0 ==> cmp(a, c) <= 0
  }

  /** The laws a comparator needs on the values `ok` accepts for the sort to
      order and keep ties. */
  ghost predicate Preorder<T(!new)>(cmp: (T, T) -> int, ok: T -> bool) {
    Antisymmetric(cmp) && TransitiveOn(cmp, ok)
  }

  predicate AllOk<T>(ok: T -> bool, s: seq<T>) {
    forall i | 0 <= i < |s| :: ok(s[i])
  }

  /** No entry of `s` goes strictly after a later one. */
  ghost predicate Sorted<T>(cmp: (T, T) -> int, s: seq<T>) {
    forall i, j | 0 <= i < j < |s| :: cmp(s[i], s[j]) <= 0
  }

  /** `x` goes no later than any entry of `s`. */
  ghost predicate Precedes<T>(cmp: (T, T) -> int, x: T, s: seq<T>) {
    forall j | 0 <= j < |s| :: cmp(x, s[j]) <= 0
  }

  /** Places `x`, which came before every entry of `t` in the input, in front
      of the first entry of `t` that does not go strictly before it. */
  function Insert<T>(cmp: (T, T) -> int, x: T, t: seq<T>): (r: seq<T>)
    ensures multiset(r) == multiset{x} + multiset(t)
  {
    if t == [] then [x]
    else if cmp(t[0], x) < 0 then
      assert t == [t[0]] + t[1..];
      [t[0]] + Insert(cmp, x, t[1..])
    else [x] + t
  }

  /** The sort: each entry, last to first, is inserted into the sorted rest. */
  function SortBy<T>(cmp: (T, T) -> int, s: seq<T>): (r: seq<T>)
    ensures multiset(r) == multiset(s)
  {
    if s == [] then []
    else
      assert s == [s[0]] + s[1..];
      Insert(cmp, s[0], SortBy(cmp, s[1..]))
  }

  /** A permutation of accepted values is accepted too. */
  lemma AllOkPermutation<T>(ok: T -> bool, a: seq<T>, b: seq<T>)
    requires multiset(a) == multiset(b) && AllOk(ok, a)
    ensures AllOk(ok, b)
  {
    forall i | 0 <= i < |b|
      ensures ok(b[i])
    {
      assert b[i] in multiset(a);
    }
  }

  lemma PrecedesPermutation<T>(cmp: (T, T) -> int, x: T, a: seq<T>, b: seq<T>)
    requires multiset(a) == multiset(b) && Precedes(cmp, x, a)
    ensures Precedes(cmp, x, b)
  {
    forall j | 0 <= j < |b|
      ensures cmp(x, b[j]) <= 0
    {
      assert b[j] in multiset(a);
      var i :| 0 <= i < |a| && a[i] == b[j];
    }
  }

  /** An entry not after the head of a sorted sequence precedes all of it. */
  lemma PrecedesSorted<T(!new)>(cmp: (T, T) -> int, ok: T -> bool, x: T, t: seq<T>)
    requires TransitiveOn(cmp, ok) && ok(x) && AllOk(ok, t) && Sorted(cmp, t)
    requires t != [] && cmp(x, t[0]) <= 0
    ensures Precedes(cmp, x, t)
  {
    forall j | 0 < j < |t|
      ensures cmp(x, t[j]) <= 0
    {
      assert ok(t[0]) && ok(t[j]);
      assert cmp(t[0], t[j]) <= 0;
    }
  }

  lemma PrecedesCons<T>(cmp: (T, T) -> int, x: T, y: T, t: seq<T>)
    requires cmp(x, y) <= 0 && Precedes(cmp, x, t)
    ensures Precedes(cmp, x, [y] + t)
  {
    forall j | 0 < j < |t| + 1
      ensures cmp(x, ([y] + t)[j]) <= 0
    {
      assert ([y] + t)[j] == t[j - 1];
    }
  }

  lemma ConsSorted<T>(cmp: (T, T) -> int, x: T, t: seq<T>)
    requires Sorted(cmp, t) && Precedes(cmp, x, t)
    ensures Sorted(cmp, [x] + t)
  {
    var r := [x] + t;
    forall i, j | 0 <= i < j < |r|
      ensures cmp(r[i], r[j]) <= 0
    {
      assert r[j] == t[j - 1];
      if i > 0 {
        assert r[i] == t[i - 1];
      }
    }
  }

  lemma SortedTail<T>(cmp: (T, T) -> int, s: seq<T>)
    requires s != [] && Sorted(cmp, s)
    ensures Sorted(cmp, s[1..])
    ensures Precedes(cmp, s[0], s[1..])
  {
    forall j | 0 <= j < |s| - 1
      ensures cmp(s[0], s[1..][j]) <= 0
    {
      assert s[1..][j] == s[j + 1];
    }
    forall i, j | 0 <= i < j < |s| - 1
      ensures cmp(s[1..][i], s[1..][j]) <= 0
    {
      assert s[1..][i] == s[i + 1] && s[1..][j] == s[j + 1];
    }
  }

  /** An entry that no entry of `t` goes strictly before is placed in front. */
  lemma InsertFront<T>(cmp: (T, T) -> int, x: T, t: seq<T>)
    requires t == [] || cmp(t[0], x) >= 0
    ensures Insert(cmp, x, t) == [x] + t
  {
  }

  /** An entry that the head of `t` goes strictly before is inserted past it. */
  lemma InsertPast<T>(cmp: (T, T) -> int, x: T, t: seq<T>)
    requires t != [] && cmp(t[0], x) < 0
    ensures Insert(cmp, x, t) == [t[0]] + Insert(cmp, x, t[1..])
  {
  }

  /** Inserting an accepted entry into a sorted sequence of accepted entries
      keeps it sorted. */
  lemma {:induction false} InsertSorted<T(!new)>(cmp: (T, T) -> int, ok: T -> bool, x: T, t: seq<T>)
    requires Preorder(cmp, ok) && ok(x) && AllOk(ok, t) && Sorted(cmp, t)
    ensures Sorted(cmp, Insert(cmp, x, t))
  {
    if t == [] {
    } else if cmp(t[0], x) < 0 {
      var t0, rest := t[0], t[1..];
      SortedTail(cmp, t);
      assert AllOk(ok, rest);
      InsertSorted(cmp, ok, x, rest);
      PrecedesCons(cmp, t0, x, rest);
      PrecedesPermutation(cmp, t0, [x] + rest, Insert(cmp, x, rest));
      ConsSorted(cmp, t0, Insert(cmp, x, rest));
      InsertPast(cmp, x, t);
    } else {
      assert cmp(x, t[0]) <= 0;
      PrecedesSorted(cmp, ok, x, t);
      ConsSorted(cmp, x, t);
    }
  }

  /** Sorting accepted entries yields ascending order. */
  lemma {:induction false} SortBySorted<T(!new)>(cmp: (T, T) -> int, ok: T -> bool, s: seq<T>)
    requires Preorder(cmp, ok) && AllOk(ok, s)
    ensures Sorted(cmp, SortBy(cmp, s))
  {
    if s != [] {
      assert AllOk(ok, s[1..]);
      SortBySorted(cmp, ok, s[1..]);
      AllOkPermutation(ok, s[1..], SortBy(cmp, s[1..]));
      InsertSorted(cmp, ok, s[0], SortBy(cmp, s[1..]));
    }
  }

  /** Sorting a sequence that is already in order returns it unchanged. */
  lemma {:induction false} SortBySortedIsIdentity<T(!new)>(cmp: (T, T) -> int, s: seq<T>)
    requires Antisymmetric(cmp) && Sorted(cmp, s)
    ensures SortBy(cmp, s) == s
  {
    if s != [] {
      var x, rest := s[0], s[1..];
      SortedTail(cmp, s);
      SortBySortedIsIdentity(cmp, rest);
      if rest != [] {
        assert cmp(x, rest[0]) <= 0;
        assert cmp(rest[0], x) == -cmp(x, rest[0]);
      }
      InsertFront(cmp, x, rest);
      assert s == [x] + rest;
    }
  }

  /* ------------------------------------------------------------------------ */
  /*  Stability                                                               */
  /* ------------------------------------------------------------------------ */

  function TiesWith<T>(cmp: (T, T) -> int, y: T): T -> bool {
    z => cmp(y, z) == 0
  }

  /** The entries of `s` that tie with `y`, in order. */
  function Ties<T(==,!new)>(cmp: (T, T) -> int, y: T, s: seq<T>): seq<T> {
    Keep(s, TiesWith(cmp, y))
  }

  lemma TiesAppend<T(!new)>(cmp: (T, T) -> int, y: T, a: seq<T>, b: seq<T>)
    ensures Ties(cmp, y, a + b) == Ties(cmp, y, a) + Ties(cmp, y, b)
  {
    KeepAppend(a, b, TiesWith(cmp, y));
  }

  lemma TiesSingle<T(!new)>(cmp: (T, T) -> int, y: T, z: T)
    ensures Ties(cmp, y, [z]) == if cmp(y, z) == 0 then [z] else []
  {
    KeepCons(z, [], TiesWith(cmp, y));
    assert [z] + [] == [z];
  }

  /** An entry strictly before `x` and `x` itself cannot both tie with `y`, so
      their tie lists may be swapped. */
  lemma TiesCommute<T(!new)>(cmp: (T, T) -> int, ok: T -> bool, y: T, t0: T, x: T)
    requires Preorder(cmp, ok) && ok(x) && ok(y) && ok(t0)
    requires cmp(t0, x) < 0
    ensures Ties(cmp, y, [t0]) + Ties(cmp, y, [x]) == Ties(cmp, y, [x]) + Ties(cmp, y, [t0])
  {
    TiesSingle(cmp, y, t0);
    TiesSingle(cmp, y, x);
    if cmp(y, t0) == 0 {
      assert cmp(x, y) == -cmp(y, x);
      assert cmp(x, t0) == -cmp(t0, x);
      assert cmp(y, x) != 0;
    }
  }

  lemma {:induction false} InsertStable<T(!new)>(cmp: (T, T) -> int, ok: T -> bool, x: T, y: T, t: seq<T>)
    requires Preorder(cmp, ok) && ok(x) && ok(y) && AllOk(ok, t) && Sorted(cmp, t)
    ensures Ties(cmp, y, Insert(cmp, x, t)) == Ties(cmp, y, [x] + t)
  {
    if t != [] && cmp(t[0], x) < 0 {
      var t0, rest := t[0], t[1..];
      assert t == [t0] + rest;
      SortedTail(cmp, t);
      assert AllOk(ok, rest);
      InsertPast(cmp, x, t);
      var ty0, tyx, tyr := Ties(cmp, y, [t0]), Ties(cmp, y, [x]), Ties(cmp, y, rest);
      TiesCommute(cmp, ok, y, t0, x);
      calc {
        Ties(cmp, y, Insert(cmp, x, t));
        Ties(cmp, y, [t0] + Insert(cmp, x, rest));
        { TiesAppend(cmp, y, [t0], Insert(cmp, x, rest)); }
        ty0 + Ties(cmp, y, Insert(cmp, x, rest));
        { InsertStable(cmp, ok, x, y, rest); }
        ty0 + Ties(cmp, y, [x] + rest);
        { TiesAppend(cmp, y, [x], rest); }
        ty0 + (tyx + tyr);
        { SwapFront(ty0, tyx, tyr); }
        tyx + (ty0 + tyr);
        { TiesAppend(cmp, y, [t0], rest); }
        tyx + Ties(cmp, y, t);
        { TiesAppend(cmp, y, [x], t); }
        Ties(cmp, y, [x] + t);
      }
    } else {
      InsertFront(cmp, x, t);
    }
  }

  /** The sort is stable: the entries tying with any accepted `y` come out in
      the order they went in. */
  lemma {:induction false} SortByStable<T(!new)>(cmp: (T, T) -> int, ok: T -> bool, y: T, s: seq<T>)
    requires Preorder(cmp, ok) && ok(y) && AllOk(ok, s)
    ensures Ties(cmp, y, SortBy(cmp, s)) == Ties(cmp, y, s)
  {
    if s != [] {
      var rest := SortBy(cmp, s[1..]);
      assert AllOk(ok, s[1..]);
      SortBySorted(cmp, ok, s[1..]);
      AllOkPermutation(ok, s[1..], rest);
      calc {
        Ties(cmp, y, SortBy(cmp, s));
        Ties(cmp, y, Insert(cmp, s[0], rest));
        { InsertStable(cmp, ok, s[0], y, rest); }
        Ties(cmp, y, [s[0]] + rest);
        { TiesAppend(cmp, y, [s[0]], rest); }
        Ties(cmp, y, [s[0]]) + Ties(cmp, y, rest);
        { SortByStable(cmp, ok, y, s[1..]); }
        Ties(cmp, y, [s[0]]) + Ties(cmp, y, s[1..]);
        { TiesAppend(cmp, y, [s[0]], s[1..]); }
        Ties(cmp, y, [s[0]] + s[1..]);
        { assert s == [s[0]] + s[1..]; }
        Ties(cmp, y, s);
      }
    }
  }
}

=== FILE: text.dfy ===
/** The string operations the budget search and sort rely on, with the meaning
    ECMAScript gives them: `trim`, `toLowerCase` (restricted to ASCII letters),
    `includes`, and the relational `<` on two strings. */
module Text {

  /* ------------------------------------------------------------------------ */
  /*  Whitespace and trimming                                                 */
  /* ------------------------------------------------------------------------ */

  /** The code points `String.prototype.trim` removes: the ECMAScript
      WhiteSpace and LineTerminator productions. */
  predicate IsWhitespace(c: char) {
    || c == '\t' || c == '\n' || c == '\U{000B}' || c == '\U{000C}' || c == '\r'
    || c == ' ' || c == '\U{00A0}' || c == '\U{1680}'
    || ('\U{2000}' <= c <= '\U{200A}')
    || c == '\U{2028}' || c == '\U{2029}' || c == '\U{202F}' || c == '\U{205F}'
    || c == '\U{3000}' || c == '\U{FEFF}'
  }

  /** Every character of `s` from index `lo` up to (not including) `hi` is
      whitespace. */
  predicate WhitespaceBetween(s: string, lo: int, hi: int)
    requires 0 <= lo && hi <= |s|
  {
    forall i | lo <= i < hi :: IsWhitespace(s[i])
  }

  /** The first index at or after `i` that does not hold whitespace. */
  function SkipForward(s: string, i: nat): (j: nat)
    requires i <= |s|
    ensures i <= j <= |s|
    ensures WhitespaceBetween(s, i, j)
    ensures j == |s| || !IsWhitespace(s[j])
    decreases |s| - i
  {
    if i < |s| && IsWhitespace(s[i]) then SkipForward(s, i + 1) else i
  }

  /** The end of `s[lo..hi]` once its trailing whitespace is dropped. */
  function SkipBackward(s: string, lo: nat, hi: nat): (j: nat)
    requires lo <= hi <= |s|
    ensures lo <= j <= hi
    ensures WhitespaceBetween(s, j, hi)
    ensures j == lo || !IsWhitespace(s[j - 1])
    decreases hi
  {
    if lo < hi && IsWhitespace(s[hi - 1]) then SkipBackward(s, lo, hi - 1) else hi
  }

  /** `r` is `s` with exactly the whitespace prefix `s[..lo]` and the whitespace
      after `r` taken away. */
  ghost predicate Strips(s: string, r: string, lo: int) {
    && 0 <= lo && lo + |r| <= |s|
    && (forall i | 0 <= i < |r| :: r[i] == s[lo + i])
    && WhitespaceBetween(s, 0, lo)
    && WhitespaceBetween(s, lo + |r|, |s|)
  }

  /** `String.prototype.trim`: the infix of `s` left after removing whitespace at
      both ends. It is empty exactly when `s` is whitespace only. */
  function Trim(s: string): (r: string)
    ensures exists lo :: Strips(s, r, lo)
    ensures r == [] || (!IsWhitespace(r[0]) && !IsWhitespace(r[|r| - 1]))
    ensures r == [] <==> WhitespaceBetween(s, 0, |s|)
  {
    var lo := SkipForward(s, 0);
    var hi := SkipBackward(s, lo, |s|);
    assert Strips(s, s[lo..hi], lo);
    s[lo..hi]
  }

  /* ------------------------------------------------------------------------ */
  /*  Lower-casing                                                            */
  /* ------------------------------------------------------------------------ */

  predicate IsUpper(c: char) {
    'A' <= c <= 'Z'
  }

  /** `toLowerCase` on one character, for ASCII letters only. */
  function LowerChar(c: char): (r: char)
    ensures !IsUpper(r)
    ensures IsUpper(c) ==> r as int == c as int + 32
    ensures !IsUpper(c) ==> r == c
    ensures IsWhitespace(r) <==> IsWhitespace(c)
  {
    if IsUpper(c) then (c as int + 32) as char else c
  }

  /** `toLowerCase`, applied character by character: the result has the same
      length, holds no upper-case letter, keeps every other character in place
      and moves each of A-Z to its lower-case letter 32 code points on. */
  function Lower(s: string): (r: string)
    ensures |r| == |s|
    ensures forall i | 0 <= i < |r| :: !IsUpper(r[i])
    ensures forall i | 0 <= i < |s| && !IsUpper(s[i]) :: r[i] == s[i]
    ensures forall i | 0 <= i < |s| && IsUpper(s[i]) :: r[i] as int == s[i] as int + 32
  {
    seq(|s|, i requires 0 <= i < |s| => LowerChar(s[i]))
  }

  /** A string without upper-case letters is its own lower-casing. */
  lemma LowerUnchanged(s: string)
    requires forall i | 0 <= i < |s| :: !IsUpper(s[i])
    ensures Lower(s) == s
  {
  }

  /** Lower-casing twice is lower-casing once. */
  lemma LowerIdempotent(s: string)
    ensures Lower(Lower(s)) == Lower(s)
  {
  }

  /** Lower-casing neither creates nor removes whitespace, so trimming and
      lower-casing commute. */
  lemma {:induction false} SkipForwardLower(s: string, i: nat)
    requires i <= |s|
    ensures SkipForward(Lower(s), i) == SkipForward(s, i)
    decreases |s| - i
  {
    if i < |s| && IsWhitespace(s[i]) {
      SkipForwardLower(s, i + 1);
    }
  }

  lemma {:induction false} SkipBackwardLower(s: string, lo: nat, hi: nat)
    requires lo <= hi <= |s|
    ensures SkipBackward(Lower(s), lo, hi) == SkipBackward(s, lo, hi)
    decreases hi
  {
    if lo < hi && IsWhitespace(s[hi - 1]) {
      SkipBackwardLower(s, lo, hi - 1);
    }
  }

  lemma {:induction false} TrimLower(s: string)
    ensures Trim(Lower(s)) == Lower(Trim(s))
  {
    SkipForwardLower(s, 0);
    var lo := SkipForward(s, 0);
    SkipBackwardLower(s, lo, |s|);
    var hi := SkipBackward(s, lo, |s|);
    LowerSlice(s, lo, hi);
  }

  lemma LowerSlice(s: string, lo: nat, hi: nat)
    requires lo <= hi <= |s|
    ensures Lower(s)[lo..hi] == Lower(s[lo..hi])
  {
    var a, b := Lower(s)[lo..hi], Lower(s[lo..hi]);
    assert |a| == |b|;
    forall i | 0 <= i < |a|
      ensures a[i] == b[i]
    {
      assert a[i] == Lower(s)[lo + i];
    }
  }

  /** A string with no whitespace at either end is its own trim. */
  lemma TrimUnpadded(s: string)
    requires s == [] || (!IsWhitespace(s[0]) && !IsWhitespace(s[|s| - 1]))
    ensures Trim(s) == s
  {
    assert SkipForward(s, 0) == 0;
    assert SkipBackward(s, 0, |s|) == |s|;
    assert s[0..|s|] == s;
  }

  /** Trimming an already trimmed string changes nothing. */
  lemma TrimIdempotent(s: string)
    ensures Trim(Trim(s)) == Trim(s)
  {
    TrimUnpadded(Trim(s));
  }

  /* ------------------------------------------------------------------------ */
  /*  Substring search                                                        */
  /* ------------------------------------------------------------------------ */

  /** `needle` occurs in `hay` starting at index `i`. */
  ghost predicate OccursAt(hay: string, needle: string, i: int) {
    0 <= i && i + |needle| <= |hay| && hay[i..i + |needle|] == needle
  }

  predicate StartsWith(s: string, prefix: string) {
    |prefix| <= |s| && s[..|prefix|] == prefix
  }

  /** `String.prototype.includes`: `needle` occurs somewhere in `hay`; the empty
      needle occurs in every string. */
  function Contains(hay: string, needle: string): (r: bool)
    ensures r <==> exists i :: OccursAt(hay, needle, i)
    decreases |hay|
  {
    if StartsWith(hay, needle) then
      assert OccursAt(hay, needle, 0);
      true
    else if hay == [] then
      false
    else
      var r := Contains(hay[1..], needle);
      assert forall i | OccursAt(hay[1..], needle, i) :: OccursAt(hay, needle, i + 1) by {
        forall i | OccursAt(hay[1..], needle, i)
          ensures OccursAt(hay, needle, i + 1)
        {
          assert hay[1..][i..i + |needle|] == hay[i + 1..i + 1 + |needle|];
        }
      }
      assert forall i | OccursAt(hay, needle, i) :: OccursAt(hay[1..], needle, i - 1) by {
        forall i | OccursAt(hay, needle, i)
          ensures OccursAt(hay[1..], needle, i - 1)
        {
          assert i != 0;
          assert hay[1..][i - 1..i - 1 + |needle|] == hay[i..i + |needle|];
        }
      }
      r
  }

  /* ------------------------------------------------------------------------ */
  /*  String ordering                                                         */
  /* ------------------------------------------------------------------------ */

  /** `a` and `b` agree on their first `k` characters, and at `k` either `a`
      has ended while `b` goes on, or `a` holds the smaller character. */
  ghost predicate FirstDifferenceAt(a: string, b: string, k: int) {
    && 0 <= k <= |a| && k < |b|
    && a[..k] == b[..k]
    && (k == |a| || a[k] < b[k])
  }

  /** The relational `a < b` on two strings: the first differing character
      decides, and a proper prefix comes first. */
  function LexLess(a: string, b: string): (r: bool)
    ensures r <==> exists k :: FirstDifferenceAt(a, b, k)
    decreases |a|
  {
    if a == [] then
      assert b != [] ==> FirstDifferenceAt(a, b, 0);
      b != []
    else if b == [] then
      false
    else if a[0] != b[0] then
      assert a[0] < b[0] ==> FirstDifferenceAt(a, b, 0);
      a[0] < b[0]
    else
      var r := LexLess(a[1..], b[1..]);
      FirstDifferenceShift(a, b);
      r
  }

  /** Past a common first character, a first difference of the tails is one of
      the whole strings, one position on. */
  lemma FirstDifferenceShift(a: string, b: string)
    requires a != [] && b != [] && a[0] == b[0]
    ensures (exists k :: FirstDifferenceAt(a, b, k)) <==> (exists k :: FirstDifferenceAt(a[1..], b[1..], k))
  {
    forall k | FirstDifferenceAt(a[1..], b[1..], k)
      ensures FirstDifferenceAt(a, b, k + 1)
    {
      assert a[..k + 1] == [a[0]] + a[1..][..k];
      assert b[..k + 1] == [b[0]] + b[1..][..k];
    }
    forall k | FirstDifferenceAt(a, b, k)
      ensures FirstDifferenceAt(a[1..], b[1..], k - 1)
    {
      assert k != 0;
      assert a[1..][..k - 1] == a[..k][1..];
      assert b[1..][..k - 1] == b[..k][1..];
    }
  }

  lemma {:induction false} LexLessIrreflexive(a: string)
    ensures !LexLess(a, a)
  {
    if a != [] {
      LexLessIrreflexive(a[1..]);
    }
  }

  lemma {:induction false} LexLessTransitive(a: string, b: string, c: string)
    requires LexLess(a, b) && LexLess(b, c)
    ensures LexLess(a, c)
  {
    if a != [] && a[0] == b[0] && b[0] == c[0] {
      LexLessTransitive(a[1..], b[1..], c[1..]);
    }
  }

  lemma LexLessAsymmetric(a: string, b: string)
    ensures LexLess(a, b) ==> !LexLess(b, a)
  {
    if LexLess(a, b) && LexLess(b, a) {
      LexLessTransitive(a, b, a);
      LexLessIrreflexive(a);
    }
  }

  /** Any two different strings are ordered one way or the other. */
  lemma {:induction false} LexLessTotal(a: string, b: string)
    ensures a == b || LexLess(a, b) || LexLess(b, a)
  {
    if a != [] && b != [] && a[0] == b[0] {
      LexLessTotal(a[1..], b[1..]);
      if a[1..] == b[1..] {
        assert a == [a[0]] + a[1..];
        assert b == [b[0]] + b[1..];
      }
    }
  }
}
